=== FILE: README.md ===
# Greedy TSP search with a three-position local search, in Dafny

This project models `tsp_greedy_opt.cpp`, a time-bounded solver for the
symmetric travelling-salesman problem. The program:

- reads an edge list into an (n+1) x (n+1) cost matrix, where nodes are 1..n
  and row and column 0 are padding;
- builds nearest-neighbour tours from randomly chosen start nodes, each start
  used at most once, abandoning a tour as soon as its partial cost reaches the
  best cost;
- improves the best tour by repeatedly drawing three interior positions and
  evaluating the five ways of rearranging the nodes at those positions;
- checks the final tour: does it close, does its recomputed cost match the
  recorded one, and is it a permutation of 1..n?

The program keeps the best tour, its cost and the number of evaluated tours in
globals. Here they are the fields of the class `Search.TspSearch`, whose
methods follow the source's functions loop by loop. The random draws and the
clock become parameters. `picks` holds the pool index of each greedy trial
and `draws` the three positions of each local-search trial; running out of
either stands for the deadline.

Modules:

- `Graphs` (graph.dfy): the matrix and `PathCost`, the cost of walking a
  sequence of nodes.
- `Evaluation` (evaluation.dfy): the recorded cost (`Infinite` until the first
  acceptance) and `Offer`, the acceptance rule of the tour evaluator. A
  candidate replaces the best only when it is strictly cheaper.
- `Tours` (tours.dfy): tours, permutations of 1..n, the sorted-copy validity
  test and the five rearrangements.
- `GraphInput` (input.dfy): the loop that fills the matrix from the edges.
- `Search` (search.dfy): the search state and its operations, the
  nearest-neighbour property of a path, the start pool, and the
  specification functions `TrialOutcome` and `LocalSearch`. These two say what
  one local-search trial, and a whole run of them, leave as the best.
- `Driver` (driver.dfy): `main` without its input and output.

Each permutation block of the local search is its own method,
`Search.TspSearch.TryRearrangement`, called five times in the source's order.

Costs are non-negative integers. The largest double the source starts from is
the `Infinite` cost.

Properties proved:

- Each candidate is offered to the evaluator exactly as the source offers it.
  A trial keeps the cheapest of the current best and its five candidates. On
  a tie with the current best the best stays; otherwise the earliest-offered
  of the cheapest candidates wins.
- The local search never raises the best cost, keeps the first and last
  entries of the tour, and turns a valid tour into a valid tour.
- Each rearrangement is a permutation of the tour. For a valid tour the five
  rearrangements differ from each other and from the tour.
- Every greedy path follows the nearest-neighbour rule. It is either complete
  or abandoned only when it could not have been accepted.
- Greedy start nodes are never reused. Every greedy trial's tour starts and
  closes at its start node and follows the nearest-neighbour rule. A trial is
  complete exactly when its tour passes the validity test; an abandoned trial's
  path already cost at least the best. The construction phase keeps the
  cheapest complete greedy tour, and the final tour costs no more than any
  complete greedy tour.
- The recorded cost is always the true cost of the recorded tour.
- The final tour validation reports a valid closed tour. Its cost matches the recorded
  one when no edge joins a node to itself.

## Model

| member | source | states |
|---|---|---|
| `Graphs.PathCost` | tsp_greedy_opt.cpp:312-319 | the cost of walking a sequence of nodes is never negative when the edge costs are not |
| `Graphs.PathCostPrefix` | tsp_greedy_opt.cpp:314-318 | one more step of the evaluator's loop adds exactly the edge from the previous node to the next one |
| `Graphs.PathCostPrefixBound` | tsp_greedy_opt.cpp:99 | a walk costs at least as much as any walk it starts with |
| `Evaluation.Offer` | tsp_greedy_opt.cpp:320-324 | the result costs no more than the current best or the candidate. It is one of the two, and it is the candidate only when the candidate is strictly cheaper |
| `Tours.NodeRangeCount` | tsp_greedy_opt.cpp:293-297 | the reference list 1..n holds each node id once and nothing else |
| `Tours.PermutationShape` | tsp_greedy_opt.cpp:291-298 | a permutation of 1..n has n entries, all node ids, none repeated |
| `Tours.DistinctCoverIsPermutation` | tsp_greedy_opt.cpp:89-116 | a repeat-free path over node ids that visits every node is a permutation of 1..n |
| `Tours.ValidTourShape` | tsp_greedy_opt.cpp:268-298 | a closed tour that passes the validity test has n+1 entries, all node ids, and no repeat before the closing entry |
| `Tours.SortedCheckMeaning` | tsp_greedy_opt.cpp:291-298 | comparing a sorted copy of the tour body with 1..n succeeds exactly when the body is a permutation of 1..n |
| `Tours.Swap` | tsp_greedy_opt.cpp:86 | the exchange puts each of the two values at the other's position and leaves every other position as it was |
| `Tours.SwapPermutes` | tsp_greedy_opt.cpp:86 | an exchange keeps the multiset of values |
| `Tours.Rotate` | tsp_greedy_opt.cpp:162-165 | the three-way rotation through a temporary moves each of the three values one place and leaves every other position as it was |
| `Tours.RotatePermutes` | tsp_greedy_opt.cpp:162-165 | a rotation keeps the multiset of values |
| `Tours.Rearrange` | tsp_greedy_opt.cpp:161-191 | every rearrangement keeps the length of the tour; `Tours.RearrangeTable` gives its effect position by position |
| `Tours.RearrangeTable` | tsp_greedy_opt.cpp:161-191 | for each of the five blocks, the value that lands at each of the three positions, with every other position unchanged |
| `Tours.RearrangePermutes` | tsp_greedy_opt.cpp:161-191 | every rearrangement keeps the multiset of values |
| `Tours.RearrangeShape` | tsp_greedy_opt.cpp:139-191 | positions drawn from 1..len-2 never move the start or the closing entry, and the tour stays on node ids |
| `Tours.RearrangeBody` | tsp_greedy_opt.cpp:139 | rearranging positions before the closing one is the same as rearranging the tour body |
| `Tours.RearrangeKeepsTour` | tsp_greedy_opt.cpp:139-191 | rearranging interior positions of a valid tour gives a valid tour with the same start and end |
| `Tours.RearrangementsDiffer` | tsp_greedy_opt.cpp:149-191 | for three distinct positions of a valid tour, the five candidates are pairwise different and none is the tour itself |
| `Search.GreedyPathSnoc` | tsp_greedy_opt.cpp:101-114 | appending a node whose edge is no dearer than the edge to any unvisited node keeps the nearest-neighbour property |
| `Search.SwapPop` | tsp_greedy_opt.cpp:86-87 | exchanging the drawn entry with the last and dropping the last removes exactly the drawn start node from the pool |
| `GraphInput.LastCostDiagonal` | tsp_greedy_opt.cpp:212-220 | a diagonal cell stays 0 when no edge joins a node to itself |
| `GraphInput.FillGraph` | tsp_greedy_opt.cpp:212-220 | the filled matrix is square of side n+1. Every cell holds the cost of the last edge between its two nodes, in either direction, or 0. The matrix is symmetric, and non-negative when the costs are |
| `GraphInput.LastCostNonNegative` | tsp_greedy_opt.cpp:216-220 | non-negative edge costs leave only non-negative cells |
| `Search.DistinctDraws` | tsp_greedy_opt.cpp:149-152 | the number of draws that get past the skip of coinciding positions, which is the trial count `Search.TspSearch.ShuffleNodes` reports; never more than the number of draws |
| `Search.DistinctDrawsAll` | tsp_greedy_opt.cpp:149-152 | every draw yields a trial exactly when no draw has coinciding positions |
| `Search.PruningIsSound` | tsp_greedy_opt.cpp:99-124 | a path abandoned because its cost reached the best cost could not have completed to a tour strictly below that cost |
| `Search.PoolSplit` | tsp_greedy_opt.cpp:64-87 | while the pool and the used start nodes together are 1..n, both hold node ids only and neither repeats one |
| `Search.PoolStep` | tsp_greedy_opt.cpp:83-87 | moving the drawn start node from the pool to the used ones keeps the two together equal to 1..n |
| `Search.TrialOutcome` | tsp_greedy_opt.cpp:155-191 | one trial never raises the best cost |
| `Search.TrialOutcomeIsMinimum` | tsp_greedy_opt.cpp:155-191 | after a trial the best costs no more than any of the five candidates. It is the previous best or one of the candidates, recorded with its true cost |
| `Search.TrialKeepsBest` | tsp_greedy_opt.cpp:155-191 | when no rearrangement is strictly cheaper than the current best, the trial leaves the best exactly as it was |
| `Search.TrialTieBreak` | tsp_greedy_opt.cpp:155-191 | when a trial changes the best, the new best is one rearrangement with its true cost, strictly cheaper than the old best and than every rearrangement offered before it: the first-offered of the cheapest |
| `Search.TrialResult` | tsp_greedy_opt.cpp:155-191 | after a trial the best has the previous best's length, start and end. It costs no more, and it is a valid tour when the previous best was |
| `Search.LocalSearch` | tsp_greedy_opt.cpp:141-192 | a run of trials keeps the tour length and node ids |
| `Search.LocalSearchImproves` | tsp_greedy_opt.cpp:141-192 | a run of trials never raises the best cost, keeps the start and the closing entry, and keeps a valid tour valid |
| `Search.GrowDone` | tsp_greedy_opt.cpp:99-116 | when extension stops, the path is complete exactly when it visits every node. An incomplete path already costs at least the best cost |
| `Search.StartPool` | tsp_greedy_opt.cpp:64-68 | the start pool is 1..n in order |
| `Search.NodeSet` | tsp_greedy_opt.cpp:90-94 | the unvisited set starts as exactly the nodes 1..n |
| `Search.VisitStep` | tsp_greedy_opt.cpp:111-115 | visiting an unvisited node keeps the path repeat-free on 1..n and the unvisited set its complement, and shrinks that set |
| `Search.PathCoverage` | tsp_greedy_opt.cpp:99-116 | a repeat-free path on 1..n is a permutation of 1..n exactly when no node is left unvisited |
| `Search.KeepsCheapestStep` | tsp_greedy_opt.cpp:117-123 | after one more construction trial the best is still the cheapest of the best before the phase and the complete tours built so far, and a tour counts as complete exactly when it passes the validity test |
| `Search.PrunedDearerStep` | tsp_greedy_opt.cpp:99-123 | after one more construction trial, every abandoned trial's path still costs at least the best, since the best cost never rises |
| `Search.ToursFromStep` | tsp_greedy_opt.cpp:76-123 | recording one more trial's closed tour with its start node keeps every recorded tour starting and closing at its start node, with a repeat-free nearest-neighbour path before the closing entry |
| `Search.TspSearch.constructor` | tsp_greedy_opt.cpp:31-36 | the search starts with no tour, the largest cost and no evaluations |
| `Search.TspSearch.CheckCycleCost` | tsp_greedy_opt.cpp:309-325 | counts one evaluation, and the best becomes the offer of the tour against the old best. The recorded cost stays the true cost of the recorded tour |
| `Search.TspSearch.NearestNeighbour` | tsp_greedy_opt.cpp:101-110 | the chosen node is unvisited, and no unvisited node is strictly closer to the current node |
| `Search.TspSearch.VisitNearest` | tsp_greedy_opt.cpp:101-115 | one extension step appends a nearest unvisited node, removes it from the unvisited set, adds exactly its edge to the cost, and keeps the loop state |
| `Search.TspSearch.GrowPath` | tsp_greedy_opt.cpp:89-116 | the path starts at the start node, has no repeats, follows the nearest-neighbour rule and has the cost of its edges. It is complete exactly when it visits every node, and if incomplete it already costs at least the best |
| `Search.TspSearch.GreedyTrial` | tsp_greedy_opt.cpp:76-125 | one evaluation is counted and the start node leaves the pool. The closed tour starts and ends at the start node; before the closing entry it is a repeat-free nearest-neighbour path. The trial is complete exactly when the tour passes the validity test; a complete tour is offered against the best, and an abandoned one changes nothing and its path already cost at least the best. Afterwards the best costs no more than before and no more than the tour, and only valid tours are ever recorded |
| `Search.TspSearch.BestGreedyCycle` | tsp_greedy_opt.cpp:61-126 | one trial per pick until the picks or the pool run out, with distinct start nodes. Each tour built starts and closes at its start node with a repeat-free nearest-neighbour path before the closing entry. A tour is complete exactly when it is valid; every tour costs no less than the new best, every abandoned path already cost at least it, and the new best is the old one or one of the complete tours with its true cost. The best never gets dearer, only valid tours are recorded, and with no tour beforehand at least one is found |
| `Search.TspSearch.GreedyLoop` | tsp_greedy_opt.cpp:76-125 | the loop runs one trial per pick until the picks or the pool run out, and keeps the construction state of `Search.TspSearch.Building` throughout |
| `Search.TspSearch.GreedyStep` | tsp_greedy_opt.cpp:76-125 | one pass of the construction loop moves the drawn start node from the pool to the used ones, counts one evaluation, appends exactly one tour to the record and leaves the earlier entries as they were, and keeps the construction state of `Search.TspSearch.Building`, whose record now holds this trial's tour |
| `Search.TspSearch.ShuffleTrial` | tsp_greedy_opt.cpp:144-191 | coinciding positions change nothing. Otherwise five evaluations are counted and the best becomes `TrialOutcome` of the best the trial began with |
| `Search.TspSearch.TryRearrangement` | tsp_greedy_opt.cpp:161-191 | each block builds exactly `Rearrange` of the tour the trial began with and offers it to the evaluator |
| `Search.TspSearch.ShuffleNodes` | tsp_greedy_opt.cpp:128-193 | nothing changes below seven nodes. Otherwise the best becomes `LocalSearch` of the draws, with five evaluations per draw of distinct positions |
| `Search.TspSearch.CheckCycle` | tsp_greedy_opt.cpp:263-307 | the report says whether the tour closes and whether its body is a permutation of 1..n. The recomputed cost includes the start node's diagonal cell. A valid tour passes, and the recorded best matches its recorded cost when that diagonal cell is 0 |
| `Driver.Construct` | tsp_greedy_opt.cpp:51-54 | after the fill and the greedy phase, the best is a valid tour of n+1 entries with a finite cost. One greedy tour is recorded per evaluation, each grown by the nearest-neighbour rule from its own start node, with no start node used twice; a tour is complete exactly when it is valid; the best is one of the complete tours and costs no more than any greedy tour, and every abandoned path already cost at least it |
| `Driver.Run` | tsp_greedy_opt.cpp:39-59 | the reported tour closes and is valid, its recorded cost is its true cost, and it matches the recomputation when no edge is a self-loop. The evaluation count is the greedy trials plus five per local-search trial. One greedy tour is recorded per greedy trial, each grown by the nearest-neighbour rule from its own start node, with no start node used twice; a tour is complete exactly when it is valid, and the reported tour costs no more than any greedy tour |

## Left out

- Reading the input file is not modelled: the file name, the node count, the header line and the failure exits. The edges arrive as a sequence. Printing, `printGraph`, `writeBestCycle` and the solution file are not modelled either.
- The clock (`checkTime`, the 57-second limit) is the length of `picks` and `draws`: one entry per trial the clock lets start.
- The random generators are not modelled. A pick is the drawn pool index. A draw records the three drawn numbers plus one, i.e. the positions used, in 1..len-2. Uniformity is not modelled.
- Costs are non-negative integers instead of doubles, so rounding in the running sums is not modelled. Negative edge costs are excluded. With them, an abandoned greedy path could be accepted.
- `cycleCount` is an unbounded natural; the source's `int` can overflow.
- The order in which `std::unordered_set` is scanned is unspecified. `Search.TspSearch.NearestNeighbour` picks the unvisited nodes in any order, so which of several equally near nodes it keeps is left open.
- `std::sort` is not modelled. `Search.TspSearch.CheckCycle` compares multisets instead, and `Tours.SortedCheckMeaning` proves this is the same test.
- Undefined behaviour is excluded by preconditions, not modelled:
  - the local search on an empty best tour (the clock expiring before the first greedy trial with n >= 7);
  - the final tour validation on an empty tour;
  - edge endpoints outside 0..n.

=== FILE: driver.dfy ===
/** The program run: fill the cost matrix, build greedy tours, improve the
    best one by local search, and validate the result. Reading the file, the
    clock, the random generator and all printing and file output are not
    modelled: the edges, the start-index picks and the position draws arrive
    as parameters, and the validation verdicts come back as a `Report`. */
module Driver {
  import opened Graphs
  import opened Evaluation
  import opened Tours
  import opened GraphInput
  import opened Search

  /** The construction phase of a run: fill the matrix from the edges, start
      the search from no tour, and run one greedy trial per pick. The first
      trial always completes (nothing is recorded yet to prune against), so
      the best is then a valid tour, the cheapest of the complete greedy tours
      in `tours`, one per evaluation, each grown from the start node at the
      same position in `starts`. */
  method Construct(n: nat, edges: seq<Edge>, picks: seq<nat>)
    returns (search: TspSearch, ghost starts: seq<int>, ghost tours: seq<seq<int>>, ghost completes: seq<bool>)
    requires n >= 1 && |picks| >= 1 && PicksWithin(picks, n)
    requires EdgesWithin(edges, n) && forall t :: 0 <= t < |edges| ==> edges[t].cost >= 0
    ensures fresh(search)
    ensures search.n == n && search.Valid() && search.HoldsTour()
    ensures forall i, j :: 0 <= i <= n && 0 <= j <= n ==> search.graph[i][j] == LastCost(edges, i, j)
    ensures ValidTour(search.bestCycle, n) && |search.bestCycle| == n + 1 && search.minCost.Finite?
    ensures search.cycleCount == if |picks| < n then |picks| else n
    ensures |tours| == |completes| && |tours| == search.cycleCount
    ensures forall k :: 0 <= k < |tours| ==>
      completes[k] == ValidTour(tours[k], n) && OnNodes(tours[k], search.graph) &&
      search.minCost.value <= PathCost(search.graph, tours[k])
    ensures forall k :: 0 <= k < |tours| && !completes[k] ==>
      |tours[k]| >= 2 && OnNodes(tours[k][..|tours[k]| - 1], search.graph) &&
      search.minCost.value <= PathCost(search.graph, tours[k][..|tours[k]| - 1])
    ensures exists k :: 0 <= k < |tours| && completes[k] && search.bestCycle == tours[k]
    ensures ToursFrom(search.graph, tours, starts) && Distinct(starts)
  {
    var graph := FillGraph(n, edges);
    search := new TspSearch(n, graph);
    starts, tours, completes := search.BestGreedyCycle(picks);
    ValidTourShape(search.bestCycle, n);
  }

  /** One run over `n` nodes. `picks` holds one start-index draw per greedy
      trial the clock allows and `draws` one position triple per local-search
      trial; at least one greedy trial must run, since the final validation reads
      the first entry of the best tour. The reported tour is a valid closed
      tour whose recomputed cost matches the recorded best cost when no edge
      joins a node to itself. */
  method Run(n: nat, edges: seq<Edge>, picks: seq<nat>, draws: seq<(nat, nat, nat)>)
    returns (search: TspSearch, report: Report, ghost starts: seq<int>, ghost tours: seq<seq<int>>,
             ghost completes: seq<bool>)
    requires n >= 1 && |picks| >= 1 && PicksWithin(picks, n)
    requires EdgesWithin(edges, n) && forall t :: 0 <= t < |edges| ==> edges[t].cost >= 0
    requires n >= 7 ==> DrawsWithin(draws, n + 1)
    ensures search.n == n && search.Valid()
    ensures forall i, j :: 0 <= i <= n && 0 <= j <= n ==> search.graph[i][j] == LastCost(edges, i, j)
    ensures ValidTour(search.bestCycle, n) && |search.bestCycle| == n + 1
    ensures search.minCost == Finite(PathCost(search.graph, search.bestCycle))
    ensures search.cycleCount ==
      (if |picks| < n then |picks| else n) + (if n >= 7 then 5 * DistinctDraws(draws) else 0)
    ensures report.closes && report.valid
    ensures report.costCheck == search.graph[search.bestCycle[0]][search.bestCycle[0]] + search.minCost.value
    ensures (forall t :: 0 <= t < |edges| ==> edges[t].i != edges[t].j) ==> report.matches
    ensures |tours| == |completes| && |tours| == if |picks| < n then |picks| else n
    ensures forall k :: 0 <= k < |tours| ==>
      completes[k] == ValidTour(tours[k], n) && OnNodes(tours[k], search.graph) &&
      search.minCost.value <= PathCost(search.graph, tours[k])
    ensures ToursFrom(search.graph, tours, starts) && Distinct(starts)
  {
    search, starts, tours, completes := Construct(n, edges, picks);
    ghost var greedy := Best(search.bestCycle, search.minCost);
    search.ShuffleNodes(draws);
    if n >= 7 {
      LocalSearchImproves(search.graph, greedy, draws, n);
    }
    // The local search never raises the cost the greedy phase left.
    assert AtMost(search.minCost, greedy.cost);
    var tour := search.bestCycle;
    assert search.minCost.Finite? && ValidTour(tour, n);
    ValidTourShape(tour, n);
    if forall t :: 0 <= t < |edges| ==> edges[t].i != edges[t].j {
      LastCostDiagonal(edges, tour[0]);
    }
    report := search.CheckCycle(tour);
  }
}

=== FILE: evaluation.dfy ===
/** The acceptance rule of the tour evaluator, as values.

    The search keeps a best tour and its cost. The cost starts above every
    tour cost (the source starts from the largest double) and a candidate
    replaces the best only when its cost is strictly lower. */
module Evaluation {
  import opened Graphs

  /** The recorded best cost: `Infinite` until a first tour is accepted. */
  datatype Cost = Infinite | Finite(value: int)

  /** `c < m`, with `Infinite` above every integer. */
  predicate Below(c: int, m: Cost)
  {
    m.Infinite? || c < m.value
  }

  /** `m <= m'`, with `Infinite` as the top element. */
  predicate AtMost(m: Cost, m': Cost)
  {
    m'.Infinite? || (m.Finite? && m.value <= m'.value)
  }

  /** The best tour found so far together with its recorded cost. */
  datatype Best = Best(cycle: seq<int>, cost: Cost)

  /** Offering candidate `c` to the evaluator: the result is the cheaper of the
      current best and `c`, and on a tie the current best stays. */
  function Offer(g: seq<seq<int>>, b: Best, c: seq<int>): (r: Best)
    requires IsGraph(g) && OnNodes(c, g)
    ensures AtMost(r.cost, b.cost) && AtMost(r.cost, Finite(PathCost(g, c)))
    ensures r == b || r == Best(c, Finite(PathCost(g, c)))
    ensures r != b ==> Below(PathCost(g, c), b.cost)
  {
    if Below(PathCost(g, c), b.cost) then Best(c, Finite(PathCost(g, c))) else b
  }
}

=== FILE: graph.dfy ===
/** The cost matrix and the cost of a walk through it.

    Nodes are numbered 1..n; the matrix has n + 1 rows of n + 1 entries so that
    a node id indexes it directly, and row and column 0 are unused padding.
    Edge costs are non-negative integers (the source stores doubles). */
module Graphs {

  /** A square matrix of non-negative costs with at least the padding row. */
  predicate IsGraph(g: seq<seq<int>>)
  {
    |g| >= 1 &&
    (forall i :: 0 <= i < |g| ==> |g[i]| == |g|) &&
    (forall i, j :: 0 <= i < |g| && 0 <= j < |g[i]| ==> g[i][j] >= 0)
  }

  /** Every entry of `c` is a valid row/column index of `g`. */
  predicate OnNodes(c: seq<int>, g: seq<seq<int>>)
  {
    forall k :: 0 <= k < |c| ==> 0 <= c[k] < |g|
  }

  /** cost(i, j) == cost(j, i) for every pair of indices. */
  predicate Symmetric(g: seq<seq<int>>)
  {
    forall i, j :: 0 <= i < |g| && 0 <= j < |g| && j < |g[i]| && i < |g[j]| ==> g[i][j] == g[j][i]
  }

  /** The sum of g[c[k-1]][c[k]] for k = 1 .. |c|-1: the cost of walking the
      entries of `c` in order. A closed tour lists its start again at the end,
      so its closing edge is the last term. */
  function PathCost(g: seq<seq<int>>, c: seq<int>): (r: int)
    requires IsGraph(g) && OnNodes(c, g)
    ensures r >= 0
    decreases |c|
  {
    if |c| <= 1 then 0
    else PathCost(g, c[..|c| - 1]) + g[c[|c| - 2]][c[|c| - 1]]
  }

  /** Appending a node id keeps a walk on the nodes of `g`. */
  lemma SnocOnNodes(g: seq<seq<int>>, c: seq<int>, x: int)
    requires OnNodes(c, g) && 0 <= x < |g|
    ensures OnNodes(c + [x], g)
  {
  }

  /** Extending a walk by one node adds exactly the one new edge. */
  lemma PathCostSnoc(g: seq<seq<int>>, c: seq<int>, x: int)
    requires IsGraph(g) && OnNodes(c, g) && |c| >= 1 && 0 <= x < |g|
    ensures OnNodes(c + [x], g)
    ensures PathCost(g, c + [x]) == PathCost(g, c) + g[c[|c| - 1]][x]
  {
    SnocOnNodes(g, c, x);
    var d := c + [x];
    assert d[..|d| - 1] == c;
  }

  /** Walking one entry further along `c` adds exactly the edge into it. */
  lemma PathCostPrefix(g: seq<seq<int>>, c: seq<int>, i: nat)
    requires IsGraph(g) && OnNodes(c, g) && 1 <= i < |c|
    ensures OnNodes(c[..i], g) && OnNodes(c[..i + 1], g)
    ensures PathCost(g, c[..i + 1]) == PathCost(g, c[..i]) + g[c[i - 1]][c[i]]
  {
    assert c[..i + 1][..i] == c[..i];
  }

  /** The cost of a walk is at least the cost of each of its prefixes: the
      edge costs are non-negative. */
  lemma {:induction false} PathCostPrefixBound(g: seq<seq<int>>, c: seq<int>, i: nat)
    requires IsGraph(g) && OnNodes(c, g) && 1 <= i <= |c|
    ensures OnNodes(c[..i], g) && PathCost(g, c[..i]) <= PathCost(g, c)
    decreases |c| - i
  {
    if i < |c| {
      PathCostPrefix(g, c, i);
      PathCostPrefixBound(g, c, i + 1);
    } else {
      assert c[..i] == c;
    }
  }
}

=== FILE: input.dfy ===
/** Filling the cost matrix from the edge list of the input file. Reading the
    file itself (the node count, the header line, the stream of triples) is
    not modelled: the triples arrive as a sequence. */
module GraphInput {
  import opened Graphs

  /** One line `i j cost` of the input: an undirected edge. */
  datatype Edge = Edge(i: int, j: int, cost: int)

  /** The value that cell [i][j] holds after the edges are written in order:
      the cost of the last edge joining i and j, in either direction, or 0 when
      no edge joins them. */
  function LastCost(edges: seq<Edge>, i: int, j: int): int
    decreases |edges|
  {
    if edges == [] then 0
    else
      var e := edges[|edges| - 1];
      if (e.i == i && e.j == j) || (e.i == j && e.j == i) then e.cost
      else LastCost(edges[..|edges| - 1], i, j)
  }

  /** A cell on the diagonal is 0 unless some edge joins a node to itself. */
  lemma {:induction false} LastCostDiagonal(edges: seq<Edge>, i: int)
    requires forall t :: 0 <= t < |edges| ==> edges[t].i != edges[t].j
    ensures LastCost(edges, i, i) == 0
    decreases |edges|
  {
    if edges != [] {
      LastCostDiagonal(edges[..|edges| - 1], i);
    }
  }

  /** Every edge endpoint is a node id 0..n that indexes the matrix. */
  predicate EdgesWithin(edges: seq<Edge>, n: nat)
  {
    forall t :: 0 <= t < |edges| ==> 0 <= edges[t].i <= n && 0 <= edges[t].j <= n
  }

  /** The fill loop: start from an (n+1) x (n+1) matrix of zeros and write each
      edge's cost at [i][j] and then at [j][i]. */
  method FillGraph(n: nat, edges: seq<Edge>) returns (g: seq<seq<int>>)
    requires EdgesWithin(edges, n)
    ensures |g| == n + 1 && forall r :: 0 <= r < |g| ==> |g[r]| == n + 1
    ensures forall i, j :: 0 <= i <= n && 0 <= j <= n ==> g[i][j] == LastCost(edges, i, j)
    ensures Symmetric(g)
    ensures (forall t :: 0 <= t < |edges| ==> edges[t].cost >= 0) ==> IsGraph(g)
  {
    g := seq(n + 1, _ => seq(n + 1, _ => 0));
    for t := 0 to |edges|
      invariant |g| == n + 1 && forall r :: 0 <= r < |g| ==> |g[r]| == n + 1
      invariant forall i, j :: 0 <= i <= n && 0 <= j <= n ==> g[i][j] == LastCost(edges[..t], i, j)
      invariant Symmetric(g)
    {
      var e := edges[t];
      g := g[e.i := g[e.i][e.j := e.cost]];
      g := g[e.j := g[e.j][e.i := e.cost]];
      assert edges[..t + 1][..t] == edges[..t];
    }
    assert edges[..|edges|] == edges;
    if forall t :: 0 <= t < |edges| ==> edges[t].cost >= 0 {
      forall i, j | 0 <= i <= n && 0 <= j <= n
        ensures g[i][j] >= 0
      {
        LastCostNonNegative(edges, i, j);
      }
    }
  }

  lemma {:induction false} LastCostNonNegative(edges: seq<Edge>, i: int, j: int)
    requires forall t :: 0 <= t < |edges| ==> edges[t].cost >= 0
    ensures LastCost(edges, i, j) >= 0
    decreases |edges|
  {
    if edges != [] {
      LastCostNonNegative(edges[..|edges| - 1], i, j);
    }
  }
}

=== FILE: search.dfy ===
/** The time-bounded tour search: greedy nearest-neighbour construction from
    every start node the clock allows, then a local search that rearranges
    three interior positions of the best tour.

    The source keeps the best tour, its cost and the number of evaluated tours
    in globals; here they are the fields of one `TspSearch` object. The random
    draws are parameters, and the deadline is the number of draws supplied:
    one per trial the clock lets start. */
module Search {
  import opened Graphs
  import opened Evaluation
  import opened Tours

  /** What the final tour validation reports about a tour. */
  datatype Report = Report(closes: bool, costCheck: int, matches: bool, valid: bool)

  /** The number of local-search draws whose three positions are pairwise
      distinct: the trials that evaluate five candidates. */
  function DistinctDraws(draws: seq<(nat, nat, nat)>): (r: nat)
    ensures r <= |draws|
    decreases |draws|
  {
    if draws == [] then 0
    else
      var d := draws[|draws| - 1];
      DistinctDraws(draws[..|draws| - 1]) + (if d.0 != d.1 && d.0 != d.2 && d.1 != d.2 then 1 else 0)
  }

  /** Every draw yields a trial exactly when no draw has coinciding
      positions. */
  lemma {:induction false} DistinctDrawsAll(draws: seq<(nat, nat, nat)>)
    ensures DistinctDraws(draws) == |draws| <==>
      forall t :: 0 <= t < |draws| ==> draws[t].0 != draws[t].1 && draws[t].0 != draws[t].2 && draws[t].1 != draws[t].2
    decreases |draws|
  {
    if draws != [] {
      var init := draws[..|draws| - 1];
      DistinctDrawsAll(init);
      assert forall t :: 0 <= t < |init| ==> init[t] == draws[t];
    }
  }

  /** Every draw names three interior positions of a tour of length `len`.
      The source draws numbers in 0 .. len - 3 and uses each one plus one as
      a position; a draw here records those positions, 1 .. len - 2. */
  predicate DrawsWithin(draws: seq<(nat, nat, nat)>, len: int)
  {
    forall t :: 0 <= t < |draws| ==>
      1 <= draws[t].0 <= len - 2 && 1 <= draws[t].1 <= len - 2 && 1 <= draws[t].2 <= len - 2
  }

  /** Greedy start-index draws: the t-th draw picks from a pool that then holds
      n - t start nodes. */
  predicate PicksWithin(picks: seq<nat>, n: nat)
  {
    forall t :: 0 <= t < |picks| && t < n ==> picks[t] < n - t
  }

  /** A tour costs at least as much as any walk it starts with, so a walk
      that already costs `m` or more can only complete to a tour that is not
      strictly below `m`: abandoning it loses nothing. */
  lemma PruningIsSound(g: seq<seq<int>>, c: seq<int>, i: nat, m: Cost)
    requires IsGraph(g) && OnNodes(c, g) && 1 <= i <= |c|
    requires !Below(PathCost(g, c[..i]), m)
    ensures !Below(PathCost(g, c), m)
  {
    PathCostPrefixBound(g, c, i);
  }

  /** While the pool and the used start nodes together are 1..n, both hold
      node ids only and neither repeats one. */
  lemma PoolSplit(pool: seq<int>, starts: seq<int>, n: nat)
    requires multiset(pool) + multiset(starts) == multiset(NodeRange(n))
    ensures forall k :: 0 <= k < |pool| ==> 1 <= pool[k] <= n
    ensures forall k :: 0 <= k < |starts| ==> 1 <= starts[k] <= n
    ensures Distinct(pool) && Distinct(starts)
  {
    assert multiset(pool) <= multiset(NodeRange(n));
    DistinctBelowRange(pool, n);
    assert multiset(starts) <= multiset(NodeRange(n));
    DistinctBelowRange(starts, n);
  }

  /** Moving the entry at `idx` from the pool to the used start nodes keeps
      the two together equal to 1..n. */
  lemma PoolStep(pool: seq<int>, rest: seq<int>, starts: seq<int>, idx: nat, n: nat)
    requires idx < |pool| && multiset(pool) + multiset(starts) == multiset(NodeRange(n))
    requires multiset(rest) == multiset(pool) - multiset{pool[idx]}
    ensures multiset(rest) + multiset(starts + [pool[idx]]) == multiset(NodeRange(n))
  {
    assert pool[idx] in multiset(pool);
    assert multiset(pool) == multiset(rest) + multiset{pool[idx]};
  }

  /** What one local-search trial on the distinct interior positions a, b, c
      leaves as the best: the five rearrangements of the best tour offered in
      turn, each against the best left by the offers before it. */
  function TrialOutcome(g: seq<seq<int>>, best: Best, a: nat, b: nat, c: nat): (r: Best)
    requires IsGraph(g) && OnNodes(best.cycle, g) && Interior(best.cycle, a, b, c)
    ensures AtMost(r.cost, best.cost)
  {
    RearrangeShape(g, best.cycle, a, b, c);
    var s := best.cycle;
    var b1 := Offer(g, best, Rearrange(s, a, b, c, 1));
    var b2 := Offer(g, b1, Rearrange(s, a, b, c, 2));
    var b3 := Offer(g, b2, Rearrange(s, a, b, c, 3));
    var b4 := Offer(g, b3, Rearrange(s, a, b, c, 4));
    Offer(g, b4, Rearrange(s, a, b, c, 5))
  }

  /** A local-search trial keeps the cheapest of the current best and the five
      rearrangements: its cost is at most each of theirs, and it is the
      current best or one of them with its true cost. `TrialKeepsBest` and
      `TrialTieBreak` say which one survives a tie. */
  lemma TrialOutcomeIsMinimum(g: seq<seq<int>>, best: Best, a: nat, b: nat, c: nat)
    requires IsGraph(g) && OnNodes(best.cycle, g) && Interior(best.cycle, a, b, c)
    ensures forall p :: 1 <= p <= 5 ==>
      OnNodes(Rearrange(best.cycle, a, b, c, p), g) &&
      AtMost(TrialOutcome(g, best, a, b, c).cost, Finite(PathCost(g, Rearrange(best.cycle, a, b, c, p))))
    ensures TrialOutcome(g, best, a, b, c) == best ||
      exists p :: 1 <= p <= 5 && OnNodes(Rearrange(best.cycle, a, b, c, p), g) &&
        TrialOutcome(g, best, a, b, c) ==
          Best(Rearrange(best.cycle, a, b, c, p), Finite(PathCost(g, Rearrange(best.cycle, a, b, c, p))))
  {
    var s := best.cycle;
    RearrangeShape(g, s, a, b, c);
    var r1, r2, r3, r4, r5 := Rearrange(s, a, b, c, 1), Rearrange(s, a, b, c, 2),
      Rearrange(s, a, b, c, 3), Rearrange(s, a, b, c, 4), Rearrange(s, a, b, c, 5);
    var b1 := Offer(g, best, r1);
    var b2 := Offer(g, b1, r2);
    var b3 := Offer(g, b2, r3);
    var b4 := Offer(g, b3, r4);
    var final := Offer(g, b4, r5);
    assert TrialOutcome(g, best, a, b, c) == final;
    forall p | 1 <= p <= 5
      ensures AtMost(final.cost, Finite(PathCost(g, Rearrange(s, a, b, c, p))))
    {
      if p == 1 {
        assert AtMost(b1.cost, Finite(PathCost(g, r1)));
      } else if p == 2 {
        assert AtMost(b2.cost, Finite(PathCost(g, r2)));
      } else if p == 3 {
        assert AtMost(b3.cost, Finite(PathCost(g, r3)));
      } else if p == 4 {
        assert AtMost(b4.cost, Finite(PathCost(g, r4)));
      }
    }
    // The survivor is the start or the last candidate that was accepted.
    if final == Best(r5, Finite(PathCost(g, r5))) {
      assert Rearrange(s, a, b, c, 5) == r5;
    } else if final == Best(r4, Finite(PathCost(g, r4))) {
      assert Rearrange(s, a, b, c, 4) == r4;
    } else if final == Best(r3, Finite(PathCost(g, r3))) {
      assert Rearrange(s, a, b, c, 3) == r3;
    } else if final == Best(r2, Finite(PathCost(g, r2))) {
      assert Rearrange(s, a, b, c, 2) == r2;
    } else if final == Best(r1, Finite(PathCost(g, r1))) {
      assert Rearrange(s, a, b, c, 1) == r1;
    }
  }

  /** The first half of the tie rule of a trial: when no rearrangement is
      strictly cheaper than the current best, the best stays. */
  lemma TrialKeepsBest(g: seq<seq<int>>, best: Best, a: nat, b: nat, c: nat)
    requires IsGraph(g) && OnNodes(best.cycle, g) && Interior(best.cycle, a, b, c)
    requires forall p :: 1 <= p <= 5 ==>
      OnNodes(Rearrange(best.cycle, a, b, c, p), g) && !Below(PathCost(g, Rearrange(best.cycle, a, b, c, p)), best.cost)
    ensures TrialOutcome(g, best, a, b, c) == best
  {
  }

  /** The second half of the tie rule of a trial: when the trial changes the
      best, it keeps the rearrangement numbered `p`, the first-offered among
      the cheapest. It is strictly cheaper than the current best and than
      every rearrangement offered before it. */
  lemma TrialTieBreak(g: seq<seq<int>>, best: Best, a: nat, b: nat, c: nat) returns (p: nat)
    requires IsGraph(g) && OnNodes(best.cycle, g) && Interior(best.cycle, a, b, c)
    requires TrialOutcome(g, best, a, b, c) != best
    ensures 1 <= p <= 5 && forall q :: 1 <= q <= 5 ==> OnNodes(Rearrange(best.cycle, a, b, c, q), g)
    ensures TrialOutcome(g, best, a, b, c) ==
      Best(Rearrange(best.cycle, a, b, c, p), Finite(PathCost(g, Rearrange(best.cycle, a, b, c, p))))
    ensures Below(PathCost(g, Rearrange(best.cycle, a, b, c, p)), best.cost)
    ensures p > 1 ==> PathCost(g, Rearrange(best.cycle, a, b, c, p)) < PathCost(g, Rearrange(best.cycle, a, b, c, 1))
    ensures p > 2 ==> PathCost(g, Rearrange(best.cycle, a, b, c, p)) < PathCost(g, Rearrange(best.cycle, a, b, c, 2))
    ensures p > 3 ==> PathCost(g, Rearrange(best.cycle, a, b, c, p)) < PathCost(g, Rearrange(best.cycle, a, b, c, 3))
    ensures p > 4 ==> PathCost(g, Rearrange(best.cycle, a, b, c, p)) < PathCost(g, Rearrange(best.cycle, a, b, c, 4))
  {
    var s := best.cycle;
    RearrangeShape(g, s, a, b, c);
    var r1, r2, r3, r4, r5 := Rearrange(s, a, b, c, 1), Rearrange(s, a, b, c, 2),
      Rearrange(s, a, b, c, 3), Rearrange(s, a, b, c, 4), Rearrange(s, a, b, c, 5);
    var c1, c2, c3, c4, c5 := PathCost(g, r1), PathCost(g, r2), PathCost(g, r3), PathCost(g, r4), PathCost(g, r5);
    var b1 := Offer(g, best, r1);
    var b2 := Offer(g, b1, r2);
    var b3 := Offer(g, b2, r3);
    var b4 := Offer(g, b3, r4);
    assert TrialOutcome(g, best, a, b, c) == Offer(g, b4, r5);
    // Each b_k costs at most the current best and the candidates offered so far.
    assert AtMost(b1.cost, best.cost) && AtMost(b1.cost, Finite(c1));
    assert AtMost(b2.cost, best.cost) && AtMost(b2.cost, Finite(c1)) && AtMost(b2.cost, Finite(c2)) by {
      assert AtMost(b2.cost, b1.cost);
    }
    assert AtMost(b3.cost, best.cost) && AtMost(b3.cost, Finite(c1)) && AtMost(b3.cost, Finite(c2)) &&
      AtMost(b3.cost, Finite(c3)) by {
      assert AtMost(b3.cost, b2.cost);
    }
    assert AtMost(b4.cost, best.cost) && AtMost(b4.cost, Finite(c1)) && AtMost(b4.cost, Finite(c2)) &&
      AtMost(b4.cost, Finite(c3)) && AtMost(b4.cost, Finite(c4)) by {
      assert AtMost(b4.cost, b3.cost);
    }
    if Below(c5, b4.cost) {
      p := 5;
    } else if Below(c4, b3.cost) {
      p := 4;
    } else if Below(c3, b2.cost) {
      p := 3;
    } else if Below(c2, b1.cost) {
      p := 2;
    } else {
      p := 1;
    }
  }

  /** `x` may stand in for the tour `s` a trial started from: same length,
      same first and last entries, node ids only, and a valid tour when `s`
      is one. */
  predicate Fits(g: seq<seq<int>>, x: seq<int>, s: seq<int>, n: nat)
  {
    |x| == |s| && |s| >= 1 && OnNodes(x, g) && x[0] == s[0] && Last(x) == Last(s) &&
    (ValidTour(s, n) ==> ValidTour(x, n))
  }

  /** Each rearrangement of interior positions fits the tour it came from. */
  lemma CandidateFits(g: seq<seq<int>>, s: seq<int>, n: nat, a: nat, b: nat, c: nat, p: nat)
    requires OnNodes(s, g) && Interior(s, a, b, c) && 1 <= p <= 5
    ensures Fits(g, Rearrange(s, a, b, c, p), s, n)
  {
    RearrangeTable(s, a, b, c, p);
    if ValidTour(s, n) {
      RearrangeKeepsTour(s, n, a, b, c, p);
    }
  }

  /** An offer between two tours that fit keeps a tour that fits, and never
      raises the cost. */
  lemma OfferFits(g: seq<seq<int>>, best: Best, x: seq<int>, s: seq<int>, n: nat)
    requires IsGraph(g) && OnNodes(x, g) && Fits(g, best.cycle, s, n) && Fits(g, x, s, n)
    ensures Fits(g, Offer(g, best, x).cycle, s, n)
    ensures AtMost(Offer(g, best, x).cost, best.cost)
  {
  }

  /** What the local search relies on after a trial: the new best has the
      shape of the old one, costs no more, and is a valid tour when the old one
      was. */
  lemma TrialResult(g: seq<seq<int>>, start: Best, final: Best, n: nat, a: nat, b: nat, c: nat)
    requires IsGraph(g) && OnNodes(start.cycle, g) && Interior(start.cycle, a, b, c)
    requires final == TrialOutcome(g, start, a, b, c)
    ensures |final.cycle| == |start.cycle| && OnNodes(final.cycle, g)
    ensures final.cycle[0] == start.cycle[0] && Last(final.cycle) == Last(start.cycle)
    ensures AtMost(final.cost, start.cost)
    ensures ValidTour(start.cycle, n) ==> ValidTour(final.cycle, n)
  {
    var s := start.cycle;
    assert Fits(g, final.cycle, s, n) && AtMost(final.cost, start.cost) by {
      var r1, r2, r3, r4, r5 := Rearrange(s, a, b, c, 1), Rearrange(s, a, b, c, 2),
        Rearrange(s, a, b, c, 3), Rearrange(s, a, b, c, 4), Rearrange(s, a, b, c, 5);
      assert OnNodes(r1, g) && OnNodes(r2, g) && OnNodes(r3, g) && OnNodes(r4, g) && OnNodes(r5, g) by {
        RearrangeShape(g, s, a, b, c);
      }
      var b1 := Offer(g, start, r1);
      var b2 := Offer(g, b1, r2);
      var b3 := Offer(g, b2, r3);
      var b4 := Offer(g, b3, r4);
      assert final == Offer(g, b4, r5);
      assert Fits(g, b1.cycle, s, n) && AtMost(b1.cost, start.cost) by {
        assert Fits(g, s, s, n);
        CandidateFits(g, s, n, a, b, c, 1);
        OfferFits(g, start, r1, s, n);
      }
      assert Fits(g, b2.cycle, s, n) && AtMost(b2.cost, start.cost) by {
        CandidateFits(g, s, n, a, b, c, 2);
        OfferFits(g, b1, r2, s, n);
      }
      assert Fits(g, b3.cycle, s, n) && AtMost(b3.cost, start.cost) by {
        CandidateFits(g, s, n, a, b, c, 3);
        OfferFits(g, b2, r3, s, n);
      }
      assert Fits(g, b4.cycle, s, n) && AtMost(b4.cost, start.cost) by {
        CandidateFits(g, s, n, a, b, c, 4);
        OfferFits(g, b3, r4, s, n);
      }
      CandidateFits(g, s, n, a, b, c, 5);
      OfferFits(g, b4, r5, s, n);
    }
  }

  /** The best after the local search has run one trial per draw, in order,
      starting from `best`. A draw whose positions coincide leaves the best as
      it is. */
  function LocalSearch(g: seq<seq<int>>, best: Best, draws: seq<(nat, nat, nat)>): (r: Best)
    requires IsGraph(g) && OnNodes(best.cycle, g) && |best.cycle| >= 3 && DrawsWithin(draws, |best.cycle|)
    ensures |r.cycle| == |best.cycle| && OnNodes(r.cycle, g)
    decreases |draws|
  {
    if draws == [] then best
    else
      var prev := LocalSearch(g, best, draws[..|draws| - 1]);
      var d := draws[|draws| - 1];
      if d.0 == d.1 || d.0 == d.2 || d.1 == d.2 then prev
      else
        TrialResult(g, prev, TrialOutcome(g, prev, d.0, d.1, d.2), 0, d.0, d.1, d.2);
        TrialOutcome(g, prev, d.0, d.1, d.2)
  }

  /** The local search never makes the best worse, keeps the start and the
      closing entry of the tour, and turns a valid tour into a valid tour. */
  lemma {:induction false} LocalSearchImproves(g: seq<seq<int>>, best: Best, draws: seq<(nat, nat, nat)>, n: nat)
    requires IsGraph(g) && OnNodes(best.cycle, g) && |best.cycle| >= 3 && DrawsWithin(draws, |best.cycle|)
    ensures AtMost(LocalSearch(g, best, draws).cost, best.cost)
    ensures LocalSearch(g, best, draws).cycle[0] == best.cycle[0]
    ensures Last(LocalSearch(g, best, draws).cycle) == Last(best.cycle)
    ensures ValidTour(best.cycle, n) ==> ValidTour(LocalSearch(g, best, draws).cycle, n)
    decreases |draws|
  {
    if draws != [] {
      var init := draws[..|draws| - 1];
      LocalSearchImproves(g, best, init, n);
      var prev := LocalSearch(g, best, init);
      var d := draws[|draws| - 1];
      if d.0 != d.1 && d.0 != d.2 && d.1 != d.2 {
        var next := TrialOutcome(g, prev, d.0, d.1, d.2);
        TrialResult(g, prev, next, n, d.0, d.1, d.2);
      }
    }
  }

  /** Each node after the start was the cheapest step from its predecessor to a
      node not yet on the path: the nearest-neighbour rule. */
  predicate GreedyPath(g: seq<seq<int>>, p: seq<int>)
    requires IsGraph(g) && OnNodes(p, g)
  {
    forall k, v :: 1 <= k < |p| && 1 <= v < |g| && v !in p[..k] ==> g[p[k - 1]][p[k]] <= g[p[k - 1]][v]
  }

  /** Appending a node that is at least as cheap a step as every node not yet
      on the path keeps the nearest-neighbour rule. */
  lemma GreedyPathSnoc(g: seq<seq<int>>, p: seq<int>, x: int)
    requires IsGraph(g) && OnNodes(p, g) && |p| >= 1 && 0 <= x < |g|
    requires GreedyPath(g, p)
    requires forall v :: 1 <= v < |g| && v !in p ==> g[p[|p| - 1]][x] <= g[p[|p| - 1]][v]
    ensures OnNodes(p + [x], g) && GreedyPath(g, p + [x])
  {
    var q := p + [x];
    assert q[..|p|] == p;
    forall k, v | 1 <= k < |q| && 1 <= v < |g| && v !in q[..k]
      ensures g[q[k - 1]][q[k]] <= g[q[k - 1]][v]
    {
      if k < |p| {
        assert q[..k] == p[..k];
      }
    }
  }

  /** Taking the entry at `idx` out of a sequence by exchanging it with the
      last entry and dropping the last entry removes exactly that one value. */
  lemma SwapPop(pool: seq<int>, idx: nat)
    requires idx < |pool|
    ensures |Swap(pool, idx, |pool| - 1)[..|pool| - 1]| == |pool| - 1
    ensures multiset(Swap(pool, idx, |pool| - 1)[..|pool| - 1]) == multiset(pool) - multiset{pool[idx]}
  {
    var swapped := Swap(pool, idx, |pool| - 1);
    SwapPermutes(pool, idx, |pool| - 1);
    assert swapped == swapped[..|pool| - 1] + [pool[idx]];
  }

  /** The loop state of a construction trial: the path holds distinct node
      ids, `unvisited` is exactly the nodes not on it, and each step of the
      path went to a nearest node not yet visited. */
  ghost predicate Growing(g: seq<seq<int>>, n: nat, cycle: seq<int>, unvisited: set<int>)
  {
    IsGraph(g) && |g| == n + 1 &&
    (forall k :: 0 <= k < |cycle| ==> 1 <= cycle[k] <= n) &&
    Distinct(cycle) &&
    (forall v :: v in unvisited <==> 1 <= v <= n && v !in cycle) &&
    GreedyPath(g, cycle)
  }

  /** When the extension loop stops, the path either visits every node or
      already costs at least the best cost. */
  lemma GrowDone(g: seq<seq<int>>, n: nat, cycle: seq<int>, unvisited: set<int>, cost: int, m: Cost)
    requires Growing(g, n, cycle, unvisited) && cost == PathCost(g, cycle)
    requires !(unvisited != {} && Below(cost, m))
    ensures forall k :: 0 <= k < |cycle| ==> 1 <= cycle[k] <= n
    ensures Distinct(cycle) && OnNodes(cycle, g) && GreedyPath(g, cycle)
    ensures IsNodePermutation(cycle, n) <==> forall v :: 1 <= v <= n ==> v in cycle
    ensures !IsNodePermutation(cycle, n) ==> !Below(cost, m)
  {
    PathCoverage(cycle, unvisited, n);
  }

  /** The start nodes 1..n in order, appended one at a time. */
  method StartPool(n: nat) returns (pool: seq<int>)
    ensures pool == NodeRange(n)
  {
    pool := [];
    for i := 1 to n + 1
      invariant pool == NodeRange(i - 1)
    {
      pool := pool + [i];
    }
  }

  /** The set of all node ids 1..n, filled one insertion at a time. */
  method NodeSet(n: nat) returns (unvisited: set<int>)
    ensures forall u :: u in unvisited <==> 1 <= u <= n
  {
    unvisited := {};
    for v := 1 to n + 1
      invariant forall u :: u in unvisited <==> 1 <= u < v
    {
      unvisited := unvisited + {v};
    }
  }

  /** Moving an unvisited node onto the end of the path keeps the path
      duplicate-free on 1..n and the unvisited set its complement. */
  lemma VisitStep(cycle: seq<int>, unvisited: set<int>, x: int, n: nat)
    requires forall k :: 0 <= k < |cycle| ==> 1 <= cycle[k] <= n
    requires Distinct(cycle)
    requires forall v :: v in unvisited <==> 1 <= v <= n && v !in cycle
    requires x in unvisited
    ensures forall k :: 0 <= k < |cycle + [x]| ==> 1 <= (cycle + [x])[k] <= n
    ensures Distinct(cycle + [x])
    ensures forall v :: v in unvisited - {x} <==> 1 <= v <= n && v !in cycle + [x]
    ensures |unvisited - {x}| < |unvisited|
  {
    var c := cycle + [x];
    forall i, j | 0 <= i < j < |c|
      ensures c[i] != c[j]
    {
      if j == |cycle| {
        assert c[i] == cycle[i];
      }
    }
  }

  /** A duplicate-free path on 1..n is a permutation of 1..n exactly when no
      node is left unvisited. */
  lemma PathCoverage(cycle: seq<int>, unvisited: set<int>, n: nat)
    requires forall k :: 0 <= k < |cycle| ==> 1 <= cycle[k] <= n
    requires Distinct(cycle)
    requires forall v :: v in unvisited <==> 1 <= v <= n && v !in cycle
    ensures IsNodePermutation(cycle, n) <==> unvisited == {}
    ensures IsNodePermutation(cycle, n) <==> forall v :: 1 <= v <= n ==> v in cycle
  {
    if unvisited == {} {
      DistinctCoverIsPermutation(cycle, n);
    } else {
      var u := SomeMember(unvisited);
      NodeRangeCount(n, u);
      assert multiset(cycle)[u] == 0;
    }
  }

  /** A nonempty set has a member (the witness for picking the next node of
      an unordered scan). */
  lemma SomeMember(s: set<int>) returns (x: int)
    requires s != {}
    ensures x in s
  {
    if forall y :: y !in s {
      assert false;
    }
    x :| x in s;
  }

  /** What the construction phase keeps, given the closed tours its trials
      built (`tours`) and which of them reached every node (`completes`).
      A tour is complete exactly when it is valid, every tour costs no less
      than `cur`, and
      `cur` is `init`, the best before the phase, or one of the complete
      tours with its true cost. */
  ghost predicate KeepsCheapest(g: seq<seq<int>>, n: nat, init: Best, tours: seq<seq<int>>, completes: seq<bool>, cur: Best)
  {
    IsGraph(g) && |tours| == |completes| &&
    (forall k :: 0 <= k < |tours| ==> OnNodes(tours[k], g)) &&
    (forall k :: 0 <= k < |tours| ==>
      completes[k] == ValidTour(tours[k], n) && AtMost(cur.cost, Finite(PathCost(g, tours[k])))) &&
    (cur == init ||
     exists k :: 0 <= k < |tours| && completes[k] && cur == Best(tours[k], Finite(PathCost(g, tours[k]))))
  }

  /** Every trial whose path stopped short of a complete tour had already
      reached the cost of `cur` before it was closed. */
  ghost predicate PrunedDearer(g: seq<seq<int>>, tours: seq<seq<int>>, completes: seq<bool>, cur: Best)
  {
    IsGraph(g) && |tours| == |completes| &&
    forall k :: 0 <= k < |tours| && !completes[k] ==>
      |tours[k]| >= 1 && OnNodes(tours[k][..|tours[k]| - 1], g) &&
      !Below(PathCost(g, tours[k][..|tours[k]| - 1]), cur.cost)
  }

  /** One more trial keeps `PrunedDearer`: a pruned trial reached the best cost
      as it stood, and the best cost never rises. */
  lemma PrunedDearerStep(g: seq<seq<int>>, tours: seq<seq<int>>, completes: seq<bool>, cur: Best,
                         tour: seq<int>, complete: bool, next: Best)
    requires PrunedDearer(g, tours, completes, cur) && AtMost(next.cost, cur.cost)
    requires !complete ==> |tour| >= 1 && OnNodes(tour[..|tour| - 1], g) && !Below(PathCost(g, tour[..|tour| - 1]), cur.cost)
    ensures PrunedDearer(g, tours + [tour], completes + [complete], next)
  {
    var tours', completes' := tours + [tour], completes + [complete];
    assert forall k :: 0 <= k < |tours| ==> tours'[k] == tours[k] && completes'[k] == completes[k];
    assert tours'[|tours|] == tour && completes'[|tours|] == complete;
  }

  /** `tour` is a closed tour as a construction trial from `start` builds
      it: it starts and closes at `start`, and the path before the closing
      entry is repeat-free and follows the nearest-neighbour rule. */
  ghost predicate BuiltFrom(g: seq<seq<int>>, tour: seq<int>, start: int)
  {
    IsGraph(g) && |tour| >= 2 && tour[0] == start && Last(tour) == start &&
    OnNodes(tour[..|tour| - 1], g) && Distinct(tour[..|tour| - 1]) && GreedyPath(g, tour[..|tour| - 1])
  }

  /** Each closed tour in `tours` was built from the start node at the same
      position in `starts`. */
  ghost predicate ToursFrom(g: seq<seq<int>>, tours: seq<seq<int>>, starts: seq<int>)
  {
    |tours| == |starts| && forall k :: 0 <= k < |tours| ==> BuiltFrom(g, tours[k], starts[k])
  }

  /** Recording one more trial's tour with its start node keeps the record. */
  lemma ToursFromStep(g: seq<seq<int>>, tours: seq<seq<int>>, starts: seq<int>, tour: seq<int>, start: int)
    requires ToursFrom(g, tours, starts) && BuiltFrom(g, tour, start)
    ensures ToursFrom(g, tours + [tour], starts + [start])
  {
    var tours', starts' := tours + [tour], starts + [start];
    assert forall k :: 0 <= k < |tours| ==> tours'[k] == tours[k] && starts'[k] == starts[k];
    assert tours'[|tours|] == tour && starts'[|tours|] == start;
  }

  /** One more construction trial: offering a complete tour, or leaving the
      best alone after a pruned one, keeps the cheapest tour built so far. */
  lemma KeepsCheapestStep(g: seq<seq<int>>, n: nat, init: Best, tours: seq<seq<int>>, completes: seq<bool>,
                          cur: Best, tour: seq<int>, complete: bool, next: Best)
    requires KeepsCheapest(g, n, init, tours, completes, cur)
    requires OnNodes(tour, g) && complete == ValidTour(tour, n)
    requires next == (if complete then Offer(g, cur, tour) else cur) && AtMost(next.cost, Finite(PathCost(g, tour)))
    ensures KeepsCheapest(g, n, init, tours + [tour], completes + [complete], next)
  {
    var tours', completes' := tours + [tour], completes + [complete];
    assert forall k :: 0 <= k < |tours| ==> tours'[k] == tours[k] && completes'[k] == completes[k];
    assert tours'[|tours|] == tour && completes'[|tours|] == complete;
    if next != cur {
      assert next == Best(tours'[|tours|], Finite(PathCost(g, tours'[|tours|])));
    } else if cur != init {
      var k :| 0 <= k < |tours| && completes[k] && cur == Best(tours[k], Finite(PathCost(g, tours[k])));
      assert tours'[k] == tours[k];
    }
  }

  class TspSearch {
    /** The number of nodes. */
    const n: nat
    /** The cost matrix, (n+1) x (n+1), read-only during the search. */
    const graph: seq<seq<int>>
    /** The best tour found so far (empty before the first acceptance). */
    var bestCycle: seq<int>
    /** Its cost; `Infinite` before the first acceptance. */
    var minCost: Cost
    /** The number of tours the search has evaluated. */
    var cycleCount: nat

    /** The recorded cost is the true cost of the recorded tour. */
    ghost predicate Valid()
      reads this
    {
      IsGraph(graph) && |graph| == n + 1 && OnNodes(bestCycle, graph) &&
      (minCost.Finite? ==> bestCycle != [] && minCost.value == PathCost(graph, bestCycle))
    }

    /** Nothing but a valid tour is ever recorded as the best. */
    ghost predicate HoldsTour()
      reads this
    {
      bestCycle == [] || ValidTour(bestCycle, n)
    }

    /** The search state at process start. */
    constructor (n: nat, graph: seq<seq<int>>)
      requires IsGraph(graph) && |graph| == n + 1
      ensures this.n == n && this.graph == graph
      ensures bestCycle == [] && minCost == Infinite && cycleCount == 0
      ensures Valid() && HoldsTour()
    {
      this.n := n;
      this.graph := graph;
      bestCycle := [];
      minCost := Infinite;
      cycleCount := 0;
    }

    /** The tour evaluator: count the evaluation, sum the edges along `cycle`,
        and record `cycle` as the best when it is strictly cheaper. */
    method CheckCycleCost(cycle: seq<int>)
      requires Valid() && |cycle| > 0 && OnNodes(cycle, graph)
      modifies this
      ensures Valid()
      ensures cycleCount == old(cycleCount) + 1
      ensures Best(bestCycle, minCost) == Offer(graph, Best(old(bestCycle), old(minCost)), cycle)
    {
      cycleCount := cycleCount + 1;
      var lastNode := cycle[0];
      var costCheck := 0;
      for i := 1 to |cycle|
        invariant lastNode == cycle[i - 1]
        invariant costCheck == PathCost(graph, cycle[..i])
        invariant bestCycle == old(bestCycle) && minCost == old(minCost)
        invariant cycleCount == old(cycleCount) + 1
      {
        PathCostPrefix(graph, cycle, i);
        costCheck := costCheck + graph[lastNode][cycle[i]];
        lastNode := cycle[i];
      }
      assert cycle[..|cycle|] == cycle;
      if Below(costCheck, minCost) {
        minCost := Finite(costCheck);
        bestCycle := cycle;
      }
    }

    /** The scan for the next node: among the unvisited nodes, one whose edge
        from `from` is cheapest. The set is scanned in an unspecified order and
        a later node replaces the current choice only when strictly cheaper. */
    method NearestNeighbour(from: int, unvisited: set<int>) returns (best: int)
      requires Valid() && 0 <= from < |graph|
      requires unvisited != {} && forall v :: v in unvisited ==> 0 <= v < |graph|
      ensures best in unvisited
      ensures forall v :: v in unvisited ==> graph[from][best] <= graph[from][v]
    {
      var nextNodeCost := Infinite;
      var rest := unvisited;
      best := from;  // overwritten by the first node scanned
      while rest != {}
        invariant rest <= unvisited
        invariant nextNodeCost.Infinite? <==> rest == unvisited
        invariant nextNodeCost.Finite? ==>
          best in unvisited && nextNodeCost.value == graph[from][best] &&
          forall v :: v in unvisited && v !in rest ==> graph[from][best] <= graph[from][v]
        decreases rest
      {
        ghost var some := SomeMember(rest);
        var i :| i in rest;
        if Below(graph[from][i], nextNodeCost) {
          nextNodeCost := Finite(graph[from][i]);
          best := i;
        }
        rest := rest - {i};
      }
    }

    /** One pass of the extension loop: scan for the nearest unvisited node
        from the end of the path, append it, add the edge to the cost and
        mark the node visited. */
    method VisitNearest(cycle: seq<int>, unvisited: set<int>, cost: int)
      returns (cycle': seq<int>, unvisited': set<int>, cost': int)
      requires Valid() && Growing(graph, n, cycle, unvisited) && |cycle| >= 1 && unvisited != {}
      requires cost == PathCost(graph, cycle)
      ensures |cycle'| == |cycle| + 1 && cycle'[..|cycle|] == cycle && cycle'[|cycle|] in unvisited
      ensures forall v :: v in unvisited ==>
        graph[cycle[|cycle| - 1]][cycle'[|cycle|]] <= graph[cycle[|cycle| - 1]][v]
      ensures unvisited' == unvisited - {cycle'[|cycle|]} && |unvisited'| < |unvisited|
      ensures Growing(graph, n, cycle', unvisited')
      ensures cost' == PathCost(graph, cycle')
    {
      var prevNode := cycle[|cycle| - 1];
      var nextNode := NearestNeighbour(prevNode, unvisited);
      PathCostSnoc(graph, cycle, nextNode);
      GreedyPathSnoc(graph, cycle, nextNode);
      VisitStep(cycle, unvisited, nextNode, n);
      cycle' := cycle + [nextNode];
      cost' := cost + graph[prevNode][nextNode];
      unvisited' := unvisited - {nextNode};
      assert cycle'[..|cycle|] == cycle;
    }

    /** The extension loop of a construction trial: from `startNode`, append
        the nearest unvisited node while some node is unvisited and the path
        is still strictly cheaper than the best cost. The path either reaches
        every node, or stops early because its cost reached the best cost. */
    method GrowPath(startNode: int) returns (cycle: seq<int>, cost: int)
      requires Valid() && 1 <= startNode <= n
      ensures |cycle| >= 1 && cycle[0] == startNode
      ensures forall k :: 0 <= k < |cycle| ==> 1 <= cycle[k] <= n
      ensures Distinct(cycle) && OnNodes(cycle, graph)
      ensures cost == PathCost(graph, cycle)
      ensures GreedyPath(graph, cycle)
      ensures IsNodePermutation(cycle, n) <==> forall v :: 1 <= v <= n ==> v in cycle
      ensures !IsNodePermutation(cycle, n) ==> !Below(cost, minCost)
    {
      cost := 0;
      var unvisited := NodeSet(n);
      unvisited := unvisited - {startNode};
      cycle := [startNode];
      while unvisited != {} && Below(cost, minCost)
        invariant 1 <= |cycle| && cycle[0] == startNode
        invariant Growing(graph, n, cycle, unvisited)
        invariant cost == PathCost(graph, cycle)
        decreases |unvisited|
      {
        cycle, unvisited, cost := VisitNearest(cycle, unvisited, cost);
      }
      GrowDone(graph, n, cycle, unvisited, cost, minCost);
    }

    /** One construction trial. It takes the start node at `idx` out of the
        pool (exchange with the last entry, then drop the last entry), grows a
        path from it, closes the path back to the start and records the tour
        when it is strictly cheaper than the best. `complete` tells whether
        the path reached every node; `tour` is the closed sequence built. An
        abandoned path had already reached the best cost. */
    method GreedyTrial(pool: seq<int>, idx: nat) returns (rest: seq<int>, ghost tour: seq<int>, ghost complete: bool)
      requires Valid()
      requires idx < |pool| && forall k :: 0 <= k < |pool| ==> 1 <= pool[k] <= n
      modifies this
      ensures Valid()
      ensures cycleCount == old(cycleCount) + 1
      ensures |rest| == |pool| - 1 && multiset(rest) == multiset(pool) - multiset{pool[idx]}
      ensures |tour| >= 2 && tour[0] == pool[idx] && Last(tour) == pool[idx] && OnNodes(tour, graph)
      ensures complete == ValidTour(tour, n)
      ensures OnNodes(tour[..|tour| - 1], graph) && Distinct(tour[..|tour| - 1]) && GreedyPath(graph, tour[..|tour| - 1])
      ensures complete ==> |tour| == n + 1
      ensures !complete ==> !Below(PathCost(graph, tour[..|tour| - 1]), old(minCost))
      ensures complete ==> Best(bestCycle, minCost) == Offer(graph, Best(old(bestCycle), old(minCost)), tour)
      ensures !complete ==> old(minCost).Finite? && bestCycle == old(bestCycle) && minCost == old(minCost)
      ensures AtMost(minCost, old(minCost)) && AtMost(minCost, Finite(PathCost(graph, tour))) && minCost.Finite?
      ensures old(HoldsTour()) ==> HoldsTour()
    {
      cycleCount := cycleCount + 1;
      var startNode := pool[idx];
      SwapPop(pool, idx);
      var swapped := Swap(pool, idx, |pool| - 1);
      rest := swapped[..|pool| - 1];

      var cycle, cost := GrowPath(startNode);
      complete := IsNodePermutation(cycle, n);
      ghost var path := cycle;
      PathCostSnoc(graph, cycle, startNode);
      cost := cost + graph[cycle[|cycle| - 1]][startNode];
      cycle := cycle + [startNode];
      tour := cycle;
      assert tour[..|path|] == path;
      if complete {
        PermutationShape(path, n);
      }
      if Below(cost, minCost) {
        minCost := Finite(cost);
        bestCycle := cycle;
      }
    }

    /** The construction phase: a pool of all start nodes, then one trial per
        pick until the picks (the clock) or the pool run out. `starts` lists
        the start nodes in the order they were used, `tours` the closed tour
        each trial built and `completes` which of them reached every node.
        The best afterwards is the cheapest of the best before and the
        complete tours. */
    method BestGreedyCycle(picks: seq<nat>) returns (ghost starts: seq<int>, ghost tours: seq<seq<int>>, ghost completes: seq<bool>)
      requires Valid() && PicksWithin(picks, n)
      modifies this
      ensures Valid()
      ensures cycleCount == old(cycleCount) + (if |picks| < n then |picks| else n)
      ensures |starts| == cycleCount - old(cycleCount) && Distinct(starts)
      ensures forall k :: 0 <= k < |starts| ==> 1 <= starts[k] <= n
      ensures |completes| == |starts| && ToursFrom(graph, tours, starts)
      ensures KeepsCheapest(graph, n, Best(old(bestCycle), old(minCost)), tours, completes, Best(bestCycle, minCost))
      ensures PrunedDearer(graph, tours, completes, Best(bestCycle, minCost))
      ensures AtMost(minCost, old(minCost))
      ensures old(HoldsTour()) ==> HoldsTour()
      ensures old(minCost) == Infinite && n > 0 && |picks| > 0 ==> minCost.Finite?
    {
      var pool := StartPool(n);
      ghost var init, count, holds := Best(bestCycle, minCost), cycleCount, HoldsTour();
      pool, starts, tours, completes := GreedyLoop(picks, pool, init, count, holds);
      PoolSplit(pool, starts, n);
    }

    /** The loop of the construction phase: one trial per pick while the
        picks and the pool last. */
    method GreedyLoop(picks: seq<nat>, pool0: seq<int>, ghost init: Best, ghost count: nat, ghost holds: bool)
      returns (pool: seq<int>, ghost starts: seq<int>, ghost tours: seq<seq<int>>, ghost completes: seq<bool>)
      requires PicksWithin(picks, n) && pool0 == NodeRange(n)
      requires Building(init, count, holds, pool0, [], [], [])
      modifies this
      ensures |starts| == if |picks| < n then |picks| else n
      ensures Building(init, count, holds, pool, starts, tours, completes)
      ensures init.cost == Infinite && |starts| > 0 ==> minCost.Finite?
    {
      pool, starts, tours, completes := pool0, [], [], [];
      var t := 0;
      while t < |picks| && pool != []
        invariant 0 <= t <= |picks| && t <= n && |pool| == n - t && |starts| == t
        invariant Building(init, count, holds, pool, starts, tours, completes)
        invariant init.cost == Infinite && t > 0 ==> minCost.Finite?
      {
        pool, starts, tours, completes := GreedyStep(pool, picks[t], starts, tours, completes, init, count, holds);
        t := t + 1;
      }
    }

    /** The state of the construction loop: the pool and the used start nodes
        together are 1..n, one evaluation was counted per used start node, the
        tours built so far were grown from their start nodes, the best is the
        cheapest of the best before the phase (`init`) and the complete tours,
        and every abandoned path had already reached it. */
    ghost predicate Building(init: Best, count: nat, holds: bool, pool: seq<int>, starts: seq<int>,
                             tours: seq<seq<int>>, completes: seq<bool>)
      reads this
    {
      Valid() && multiset(pool) + multiset(starts) == multiset(NodeRange(n)) &&
      cycleCount == count + |starts| && ToursFrom(graph, tours, starts) &&
      KeepsCheapest(graph, n, init, tours, completes, Best(bestCycle, minCost)) &&
      PrunedDearer(graph, tours, completes, Best(bestCycle, minCost)) && AtMost(minCost, init.cost) && (holds ==> HoldsTour())
    }

    /** One pass of the construction loop: a trial from the start node at
        `idx` of the pool, with the node moved to the used ones and the tour
        it built added to the record. */
    method GreedyStep(pool: seq<int>, idx: nat, ghost starts: seq<int>, ghost tours: seq<seq<int>>,
                      ghost completes: seq<bool>, ghost init: Best, ghost count: nat, ghost holds: bool)
      returns (pool': seq<int>, ghost starts': seq<int>, ghost tours': seq<seq<int>>, ghost completes': seq<bool>)
      requires idx < |pool| && Building(init, count, holds, pool, starts, tours, completes)
      modifies this
      ensures |pool'| == |pool| - 1 && starts' == starts + [pool[idx]] && minCost.Finite?
      ensures |tours'| == |tours| + 1 && |completes'| == |completes| + 1
      ensures tours'[..|tours|] == tours && completes'[..|completes|] == completes
      ensures Building(init, count, holds, pool', starts', tours', completes')
    {
      PoolSplit(pool, starts, n);
      ghost var cur := Best(bestCycle, minCost);
      ghost var tour, complete;
      pool', tour, complete := GreedyTrial(pool, idx);
      KeepsCheapestStep(graph, n, init, tours, completes, cur, tour, complete, Best(bestCycle, minCost));
      PrunedDearerStep(graph, tours, completes, cur, tour, complete, Best(bestCycle, minCost));
      ToursFromStep(graph, tours, starts, tour, pool[idx]);
      PoolStep(pool, pool', starts, idx, n);
      starts', tours', completes' := starts + [pool[idx]], tours + [tour], completes + [complete];
      assert tours'[..|tours|] == tours && completes'[..|completes|] == completes;
    }

    /** One local-search trial on the drawn interior positions a, b, c.
        Positions that coincide are discarded.
        Otherwise five copies of the best tour, each with one rearrangement of
        the values at those positions, are offered in turn; every copy is taken
        from the best tour as it was when the trial began. */
    method ShuffleTrial(a: nat, b: nat, c: nat)
      requires Valid() && |bestCycle| >= 3
      requires 1 <= a <= |bestCycle| - 2 && 1 <= b <= |bestCycle| - 2 && 1 <= c <= |bestCycle| - 2
      modifies this
      ensures Valid()
      ensures a == b || a == c || b == c ==>
        bestCycle == old(bestCycle) && minCost == old(minCost) && cycleCount == old(cycleCount)
      ensures a != b && a != c && b != c ==>
        cycleCount == old(cycleCount) + 5 &&
        Best(bestCycle, minCost) == TrialOutcome(graph, Best(old(bestCycle), old(minCost)), a, b, c)
    {
      if a == b || a == c || b == c {
        return;
      }
      // The copies are all taken from the tour the trial began with.
      var s := bestCycle;
      var cycle1 := TryRearrangement(s, a, b, c, 1);
      var cycle2 := TryRearrangement(s, a, b, c, 2);
      var cycle3 := TryRearrangement(s, a, b, c, 3);
      var cycle4 := TryRearrangement(s, a, b, c, 4);
      var cycle5 := TryRearrangement(s, a, b, c, 5);
    }

    /** One block of a trial: copy `s`, the best tour as the trial began,
        move the values at positions a, b, c through a temporary as
        rearrangement p prescribes, and evaluate the copy. */
    method TryRearrangement(s: seq<int>, a: nat, b: nat, c: nat, p: nat) returns (cycle: seq<int>)
      requires Valid() && OnNodes(s, graph) && Interior(s, a, b, c) && 1 <= p <= 5
      modifies this
      ensures Valid() && cycleCount == old(cycleCount) + 1
      ensures cycle == Rearrange(s, a, b, c, p) && OnNodes(cycle, graph)
      ensures Best(bestCycle, minCost) == Offer(graph, Best(old(bestCycle), old(minCost)), cycle)
    {
      cycle := s;
      var tmp;
      if p == 1 {
        tmp := cycle[a];
        cycle := cycle[a := cycle[b]];
        cycle := cycle[b := cycle[c]];
        cycle := cycle[c := tmp];
      } else if p == 2 {
        tmp := cycle[a];
        cycle := cycle[a := cycle[b]];
        cycle := cycle[b := tmp];
      } else if p == 3 {
        tmp := cycle[a];
        cycle := cycle[a := cycle[c]];
        cycle := cycle[c := cycle[b]];
        cycle := cycle[b := tmp];
      } else if p == 4 {
        tmp := cycle[a];
        cycle := cycle[a := cycle[c]];
        cycle := cycle[c := tmp];
      } else {
        tmp := cycle[b];
        cycle := cycle[b := cycle[c]];
        cycle := cycle[c := tmp];
      }
      assert cycle == Rearrange(s, a, b, c, p);
      RearrangeShape(graph, s, a, b, c);
      CheckCycleCost(cycle);
    }

    /** The local-search phase: nothing below seven nodes; otherwise one trial
        per draw until the draws (the clock) run out. */
    method ShuffleNodes(draws: seq<(nat, nat, nat)>)
      requires Valid()
      requires n >= 7 ==> |bestCycle| >= 3 && DrawsWithin(draws, |bestCycle|)
      modifies this
      ensures Valid()
      ensures n < 7 ==> bestCycle == old(bestCycle) && minCost == old(minCost) && cycleCount == old(cycleCount)
      ensures n >= 7 ==>
        cycleCount == old(cycleCount) + 5 * DistinctDraws(draws) &&
        Best(bestCycle, minCost) == LocalSearch(graph, Best(old(bestCycle), old(minCost)), draws)
    {
      if n < 7 {
        return;
      }
      ghost var start := Best(bestCycle, minCost);
      for t := 0 to |draws|
        invariant Valid()
        invariant Best(bestCycle, minCost) == LocalSearch(graph, start, draws[..t])
        invariant cycleCount == old(cycleCount) + 5 * DistinctDraws(draws[..t])
      {
        var d := draws[t];
        assert draws[..t + 1][..t] == draws[..t] && draws[..t + 1][t] == d;
        ShuffleTrial(d.0, d.1, d.2);
      }
      assert draws[..|draws|] == draws;
    }

    /** The final validation of a tour: does it close, does its cost recomputed from
        the matrix equal the recorded best cost, and is its body a permutation
        of 1..n. The recomputation starts its walk at the first entry, so it
        also adds the diagonal cell of the start node. */
    method CheckCycle(cycle: seq<int>) returns (r: Report)
      requires Valid() && |cycle| > 0 && OnNodes(cycle, graph)
      ensures r.closes == (cycle[0] == cycle[|cycle| - 1])
      ensures r.costCheck == graph[cycle[0]][cycle[0]] + PathCost(graph, cycle)
      ensures r.matches == (minCost == Finite(r.costCheck))
      ensures r.valid <==> IsNodePermutation(cycle[..|cycle| - 1], n)
      ensures ValidTour(cycle, n) ==> r.closes && r.valid
      ensures cycle == bestCycle && minCost.Finite? && graph[cycle[0]][cycle[0]] == 0 ==> r.matches
    {
      var closes := cycle[0] == cycle[|cycle| - 1];
      var costCheck := 0;
      var lastNode := cycle[0];
      var i := 0;
      while i < |cycle|
        invariant 0 <= i <= |cycle|
        invariant lastNode == if i == 0 then cycle[0] else cycle[i - 1]
        invariant costCheck == if i == 0 then 0 else graph[cycle[0]][cycle[0]] + PathCost(graph, cycle[..i])
      {
        if i > 0 {
          PathCostPrefix(graph, cycle, i);
        }
        costCheck := costCheck + graph[lastNode][cycle[i]];
        lastNode := cycle[i];
        i := i + 1;
      }
      assert cycle[..i] == cycle;
      // Sorting the body and comparing it with 1..n is the same test as
      // comparing multisets (Tours.SortedCheckMeaning).
      var valid := multiset(cycle[..|cycle| - 1]) == multiset(NodeRange(n));
      r := Report(closes, costCheck, minCost == Finite(costCheck), valid);
    }
  }
}

=== FILE: tours.dfy ===
/** Tours, the validity test applied to the final tour, and the five
    rearrangements of three tour positions used by the local search. */
module Tours {
  import opened Graphs

  /** The node ids 1..n in ascending order. */
  function NodeRange(n: nat): (r: seq<int>)
    ensures |r| == n && forall k :: 0 <= k < n ==> r[k] == k + 1
  {
    seq(n, k => k + 1)
  }

  /** Every node id occurs once in 1..n, and nothing else occurs. */
  lemma {:induction false} NodeRangeCount(n: nat, x: int)
    ensures multiset(NodeRange(n))[x] == if 1 <= x <= n then 1 else 0
  {
    if n > 0 {
      assert NodeRange(n) == NodeRange(n - 1) + [n];
      NodeRangeCount(n - 1, x);
    }
  }

  /** `s` lists each of the nodes 1..n exactly once, in some order. */
  predicate IsNodePermutation(s: seq<int>, n: nat)
  {
    multiset(s) == multiset(NodeRange(n))
  }

  /** The closing entry of a nonempty sequence. */
  function Last(s: seq<int>): int
    requires |s| >= 1
  {
    s[|s| - 1]
  }

  /** A closed tour over 1..n: the first entry equals the last one, and the
      entries before the closing one are a permutation of 1..n. */
  predicate ValidTour(c: seq<int>, n: nat)
  {
    |c| > 0 && c[0] == c[|c| - 1] && IsNodePermutation(c[..|c| - 1], n)
  }

  /** No value occurs twice in `s`. */
  predicate Distinct(s: seq<int>)
  {
    forall i, j :: 0 <= i < j < |s| ==> s[i] != s[j]
  }

  /** A sequence that uses each node at most once holds only node ids, and
      none of them twice. */
  lemma DistinctBelowRange(s: seq<int>, n: nat)
    requires multiset(s) <= multiset(NodeRange(n))
    ensures forall k :: 0 <= k < |s| ==> 1 <= s[k] <= n
    ensures Distinct(s)
  {
    forall k | 0 <= k < |s|
      ensures 1 <= s[k] <= n
    {
      assert s[k] in multiset(s);
      NodeRangeCount(n, s[k]);
    }
    forall i, j | 0 <= i < j < |s|
      ensures s[i] != s[j]
    {
      if s[i] == s[j] {
        var v := s[i];
        assert s == s[..j] + s[j..];
        assert s[i] in s[..j];
        assert s[j] in s[j..];
        assert multiset(s)[v] == multiset(s[..j])[v] + multiset(s[j..])[v];
        NodeRangeCount(n, v);
        assert false;
      }
    }
  }

  /** A permutation of 1..n has n entries, all node ids, none repeated. */
  lemma PermutationShape(s: seq<int>, n: nat)
    requires IsNodePermutation(s, n)
    ensures |s| == n && Distinct(s)
    ensures forall k :: 0 <= k < |s| ==> 1 <= s[k] <= n
  {
    assert |multiset(s)| == |s|;
    DistinctBelowRange(s, n);
  }

  /** In a sequence without repeats every value occurs once or not at all. */
  lemma {:induction false} DistinctCount(s: seq<int>, x: int)
    requires Distinct(s)
    ensures multiset(s)[x] == if x in s then 1 else 0
    decreases |s|
  {
    if s != [] {
      var front := s[..|s| - 1];
      assert s == front + [s[|s| - 1]];
      DistinctCount(front, x);
      if x == s[|s| - 1] {
        assert x !in front;
      }
    }
  }

  /** Without repeats, using only node ids and covering all of them is a
      permutation of 1..n. */
  lemma DistinctCoverIsPermutation(s: seq<int>, n: nat)
    requires Distinct(s)
    requires forall k :: 0 <= k < |s| ==> 1 <= s[k] <= n
    requires forall v :: 1 <= v <= n ==> v in s
    ensures IsNodePermutation(s, n)
  {
    forall x
      ensures multiset(s)[x] == multiset(NodeRange(n))[x]
    {
      DistinctCount(s, x);
      NodeRangeCount(n, x);
    }
    assert multiset(s) == multiset(NodeRange(n));
  }

  /** The shape of a valid tour over at least one node: n + 1 entries, node ids
      only, no repeat before the closing entry. */
  lemma ValidTourShape(c: seq<int>, n: nat)
    requires ValidTour(c, n) && n >= 1
    ensures |c| == n + 1
    ensures forall k :: 0 <= k < |c| ==> 1 <= c[k] <= n
    ensures Distinct(c[..n])
  {
    PermutationShape(c[..|c| - 1], n);
    assert c[..|c| - 1][0] == c[0];
  }

  /** Ascending order, as std::sort leaves a vector. */
  predicate Sorted(s: seq<int>)
  {
    forall i, j :: 0 <= i < j < |s| ==> s[i] <= s[j]
  }

  /** A sorted sequence with no repeats whose entries lie in 1..n and that has
      n entries is exactly 1..n. */
  lemma SortedDistinctRange(t: seq<int>, n: nat)
    requires Sorted(t) && Distinct(t) && |t| == n
    requires forall k :: 0 <= k < |t| ==> 1 <= t[k] <= n
    ensures t == NodeRange(n)
  {
    forall k | 0 <= k < n
      ensures t[k] == k + 1
    {
      LowerBound(t, k);
      UpperBound(t, n, k);
    }
  }

  lemma {:induction false} LowerBound(t: seq<int>, k: nat)
    requires Sorted(t) && Distinct(t) && k < |t|
    requires forall i :: 0 <= i < |t| ==> 1 <= t[i]
    ensures t[k] >= k + 1
  {
    if k > 0 {
      LowerBound(t, k - 1);
    }
  }

  lemma {:induction false} UpperBound(t: seq<int>, n: nat, k: nat)
    requires Sorted(t) && Distinct(t) && k < |t| == n
    requires forall i :: 0 <= i < |t| ==> t[i] <= n
    ensures t[k] <= k + 1
    decreases n - k
  {
    if k < n - 1 {
      UpperBound(t, n, k + 1);
    }
  }

  /** The validity test sorts a copy of the tour body and compares it with
      1..n. For any sorted rearrangement `t` of `s`, that comparison succeeds
      exactly when `s` is a permutation of 1..n. */
  lemma SortedCheckMeaning(s: seq<int>, t: seq<int>, n: nat)
    requires Sorted(t) && multiset(t) == multiset(s)
    ensures t == NodeRange(n) <==> IsNodePermutation(s, n)
  {
    if IsNodePermutation(s, n) {
      PermutationShape(t, n);
      SortedDistinctRange(t, n);
    }
  }

  /** The sequence with the entries at positions i and j exchanged. */
  function Swap(s: seq<int>, i: nat, j: nat): (r: seq<int>)
    requires i < |s| && j < |s|
    ensures |r| == |s| && r[i] == s[j] && r[j] == s[i]
    ensures forall k :: 0 <= k < |s| && k != i && k != j ==> r[k] == s[k]
  {
    s[i := s[j]][j := s[i]]
  }

  /** An exchange keeps the multiset of values. */
  lemma SwapPermutes(s: seq<int>, i: nat, j: nat)
    requires i < |s| && j < |s|
    ensures multiset(Swap(s, i, j)) == multiset(s)
  {
  }

  /** A rotation of three positions: x takes the value at y, y the value at
      z and z the value at x. */
  function Rotate(s: seq<int>, x: nat, y: nat, z: nat): (r: seq<int>)
    requires x < |s| && y < |s| && z < |s| && x != y && x != z && y != z
    ensures |r| == |s| && r[x] == s[y] && r[y] == s[z] && r[z] == s[x]
    ensures forall k :: 0 <= k < |s| && k != x && k != y && k != z ==> r[k] == s[k]
  {
    s[x := s[y]][y := s[z]][z := s[x]]
  }

  /** A rotation is two exchanges in a row, so it keeps the multiset of
      values. */
  lemma RotatePermutes(s: seq<int>, x: nat, y: nat, z: nat)
    requires x < |s| && y < |s| && z < |s| && x != y && x != z && y != z
    ensures multiset(Rotate(s, x, y, z)) == multiset(s)
  {
    var t := Swap(s, x, y);
    SwapPermutes(s, x, y);
    SwapPermutes(t, y, z);
    assert Rotate(s, x, y, z) == Swap(t, y, z);
  }

  /** Rearrangement number p (1..5) of the values at the distinct positions
      a, b, c, written as the local search writes it through a temporary:
        1: a gets b's value, b gets c's, c gets a's (one rotation);
        2: a and b exchanged;
        3: a gets c's value, c gets b's, b gets a's (the other rotation);
        4: a and c exchanged;
        5: b and c exchanged. */
  function Rearrange(s: seq<int>, a: nat, b: nat, c: nat, p: nat): (r: seq<int>)
    requires a < |s| && b < |s| && c < |s| && a != b && a != c && b != c && 1 <= p <= 5
    ensures |r| == |s|
  {
    if p == 1 then Rotate(s, a, b, c)
    else if p == 2 then Swap(s, a, b)
    else if p == 3 then Rotate(s, a, c, b)
    else if p == 4 then Swap(s, a, c)
    else Swap(s, b, c)
  }

  /** Each rearrangement moves only the values at a, b and c, and only among
      those positions, as the table below says. */
  lemma RearrangeTable(s: seq<int>, a: nat, b: nat, c: nat, p: nat)
    requires a < |s| && b < |s| && c < |s| && a != b && a != c && b != c && 1 <= p <= 5
    ensures forall k :: 0 <= k < |s| && k != a && k != b && k != c ==> Rearrange(s, a, b, c, p)[k] == s[k]
    ensures p == 1 ==> Rearrange(s, a, b, c, p)[a] == s[b] && Rearrange(s, a, b, c, p)[b] == s[c] && Rearrange(s, a, b, c, p)[c] == s[a]
    ensures p == 2 ==> Rearrange(s, a, b, c, p)[a] == s[b] && Rearrange(s, a, b, c, p)[b] == s[a] && Rearrange(s, a, b, c, p)[c] == s[c]
    ensures p == 3 ==> Rearrange(s, a, b, c, p)[a] == s[c] && Rearrange(s, a, b, c, p)[b] == s[a] && Rearrange(s, a, b, c, p)[c] == s[b]
    ensures p == 4 ==> Rearrange(s, a, b, c, p)[a] == s[c] && Rearrange(s, a, b, c, p)[b] == s[b] && Rearrange(s, a, b, c, p)[c] == s[a]
    ensures p == 5 ==> Rearrange(s, a, b, c, p)[a] == s[a] && Rearrange(s, a, b, c, p)[b] == s[c] && Rearrange(s, a, b, c, p)[c] == s[b]
  {
  }

  /** Each rearrangement keeps the multiset of values. */
  lemma RearrangePermutes(s: seq<int>, a: nat, b: nat, c: nat, p: nat)
    requires a < |s| && b < |s| && c < |s| && a != b && a != c && b != c && 1 <= p <= 5
    ensures multiset(Rearrange(s, a, b, c, p)) == multiset(s)
  {
    if p == 1 {
      RotatePermutes(s, a, b, c);
    } else if p == 2 {
      SwapPermutes(s, a, b);
    } else if p == 3 {
      RotatePermutes(s, a, c, b);
    } else if p == 4 {
      SwapPermutes(s, a, c);
    } else {
      SwapPermutes(s, b, c);
    }
  }

  /** Positions that may be rearranged: neither the start (position 0) nor the
      closing entry (the last position). */
  predicate Interior(s: seq<int>, a: nat, b: nat, c: nat)
  {
    1 <= a <= |s| - 2 && 1 <= b <= |s| - 2 && 1 <= c <= |s| - 2 && a != b && a != c && b != c
  }

  /** Rearranging interior positions keeps the length, the first entry, the
      last entry and the node ids of the tour. */
  lemma RearrangeShape(g: seq<seq<int>>, s: seq<int>, a: nat, b: nat, c: nat)
    requires OnNodes(s, g) && Interior(s, a, b, c)
    ensures forall p :: 1 <= p <= 5 ==>
      OnNodes(Rearrange(s, a, b, c, p), g) &&
      Rearrange(s, a, b, c, p)[0] == s[0] && Rearrange(s, a, b, c, p)[|s| - 1] == s[|s| - 1]
  {
    forall p | 1 <= p <= 5
      ensures OnNodes(Rearrange(s, a, b, c, p), g)
      ensures Rearrange(s, a, b, c, p)[0] == s[0] && Rearrange(s, a, b, c, p)[|s| - 1] == s[|s| - 1]
    {
      RearrangeTable(s, a, b, c, p);
    }
  }

  /** Rearranging positions before the last one commutes with dropping the
      last entry. */
  lemma RearrangeBody(s: seq<int>, a: nat, b: nat, c: nat, p: nat)
    requires Interior(s, a, b, c) && 1 <= p <= 5
    ensures Rearrange(s, a, b, c, p)[..|s| - 1] == Rearrange(s[..|s| - 1], a, b, c, p)
  {
    var body := s[..|s| - 1];
    RearrangeTable(s, a, b, c, p);
    RearrangeTable(body, a, b, c, p);
    assert forall k :: 0 <= k < |body| ==> Rearrange(s, a, b, c, p)[k] == Rearrange(body, a, b, c, p)[k];
  }

  /** Rearranging interior positions of a valid tour gives a valid tour with the
      same first and last entries. */
  lemma RearrangeKeepsTour(s: seq<int>, n: nat, a: nat, b: nat, c: nat, p: nat)
    requires ValidTour(s, n) && Interior(s, a, b, c) && 1 <= p <= 5
    ensures ValidTour(Rearrange(s, a, b, c, p), n)
    ensures Rearrange(s, a, b, c, p)[0] == s[0]
    ensures Rearrange(s, a, b, c, p)[|s| - 1] == s[|s| - 1]
  {
    var body := s[..|s| - 1];
    RearrangeBody(s, a, b, c, p);
    RearrangePermutes(body, a, b, c, p);
    RearrangeTable(s, a, b, c, p);
  }

  /** The five rearrangements of a valid tour are five different tours, and
      none of them is the tour itself. */
  lemma RearrangementsDiffer(s: seq<int>, n: nat, a: nat, b: nat, c: nat)
    requires ValidTour(s, n) && Interior(s, a, b, c)
    ensures forall p :: 1 <= p <= 5 ==> Rearrange(s, a, b, c, p) != s
    ensures forall p, q :: 1 <= p < q <= 5 ==> Rearrange(s, a, b, c, p) != Rearrange(s, a, b, c, q)
  {
    var body := s[..|s| - 1];
    PermutationShape(body, n);
    assert s[a] == body[a] && s[b] == body[b] && s[c] == body[c];
    assert s[a] != s[b] && s[a] != s[c] && s[b] != s[c];
    RearrangeTable(s, a, b, c, 1);
    RearrangeTable(s, a, b, c, 2);
    RearrangeTable(s, a, b, c, 3);
    RearrangeTable(s, a, b, c, 4);
    RearrangeTable(s, a, b, c, 5);
  }
}
